=== FILE: README.md ===
# range-v3: for_each, keys/values and replace, modelled in Dafny

This project models three small pieces of the range-v3 library as Dafny
sequences:

- `view::for_each`, the yield helpers (`yield`, `yield_from`, `yield_if`,
  `lazy_yield_if`) and `operator>>=`. Together they form the list-monad bind:
  map each element to a sub-range, then flatten with join.
- `view::keys` and `view::values`. These project each pair-like element to
  its `first` or `second` component. The component comes back either as an
  alias of the component (for a reference member, of the object it refers
  to; writable unless the component is const) or as a value moved out of the
  pair expression, when that expression is not an lvalue and the member is
  not declared as an lvalue reference.
- `ranges::replace`. One forward pass overwrites, in place, every element
  whose projection equals the old value, then returns the end position.

The views are given by the sequence they denote once driven to the end.
`transform`, `join`, `single`, `repeat_n` and `generate_n` have their own
headers, which are not part of this model. They appear in `views.dfy` only
through that denotation (`Views.Transform`, `Views.Join`, …).

The library's concept checks select, at build time, between the working
overload and a rejecting overload. The rejecting overload fires the static
assertions of its unmet requirements; for `yield`, only the first unmet one
fires, because its second assertion is guarded by the first requirement.
Here a call becomes a
`Results.Result`: `Success` holds the view, and `Failure` holds one
`Concepts.Diagnostic` per assertion that fires. The type-level facts a
concept inspects are passed in as a record of booleans (`ForEachTypes`,
`YieldTypes`, `RangeTypes`).

Files: `results.dfy`, `concepts.dfy`, `views.dfy`, `for_each.dfy`
(module `ForEachView`), `map.dfy` (module `PairViews`), `replace.dfy`
(module `ReplaceAlgorithm`).

## Model

| member | source | states |
|---|---|---|
| Concepts.AssertMsg | include/range/v3/view/for_each.hpp:73-75 | a message assertion is silent exactly when its requirement holds, and otherwise reports that one requirement for that operation |
| ForEachView.ForEach | include/range/v3/view/for_each.hpp:60-65 | the flattened result is as long as all the sub-ranges together; empty sub-ranges add nothing |
| ForEachView.CheckedForEach | include/range/v3/view/for_each.hpp:37-88 | the view is built exactly when the range is an input range, the function is copyable and callable on the reference type, and its result is an input range; otherwise each assertion fires exactly when its requirement fails, assuming the types it names exist |
| ForEachView.ForEachEmpty | include/range/v3/view/for_each.hpp:64 | for_each over an empty source is empty |
| ForEachView.ForEachAppend | include/range/v3/view/for_each.hpp:64 | for_each distributes over concatenation of the source |
| ForEachView.ForEachSplit | include/range/v3/view/for_each.hpp:45-47 | the sub-range of element i appears whole, after those of the earlier elements and before those of the later ones |
| ForEachView.ForEachOrigin | include/range/v3/view/for_each.hpp:45-47 | element j of the sub-range of element i sits at the position right after everything the sub-ranges of the earlier elements contributed |
| ForEachView.ForEachSkipsEmpty | include/range/v3/view/for_each.hpp:45-47 | an element mapped to an empty sub-range contributes nothing: dropping it from the source gives the same result |
| ForEachView.CheckedYield | include/range/v3/view/for_each.hpp:96-119 | yield(v) is the one-element view [v] when the value type is copyable and constructible from the argument; otherwise exactly one reason is reported, and the constructibility reason only when copyability holds |
| ForEachView.Yield | include/range/v3/view/for_each.hpp:99-104 | yield(v) is a one-element sequence whose element is v |
| ForEachView.ForEachYield | include/range/v3/view/for_each.hpp:99-104 | yield is a right identity: for_each(s, yield) == s |
| ForEachView.YieldFrom | include/range/v3/view/for_each.hpp:129-134 | yield_from returns its view argument itself, unwrapped |
| ForEachView.ForEachYieldFrom | include/range/v3/view/for_each.hpp:129-134 | yield_from passes its range through unchanged, so wrapping a body's result in it changes nothing |
| ForEachView.YieldIf | include/range/v3/view/for_each.hpp:141-147 | yield_if(b, v) is [v] when b holds and [] otherwise, with v already evaluated |
| ForEachView.ForEachYieldIf | include/range/v3/view/for_each.hpp:141-147 | for_each with the body yield_if(p(x), x) is the filter of the source by p, order kept |
| ForEachView.LazyYieldIf | include/range/v3/view/for_each.hpp:154-161 | lazy_yield_if(b, f) has b ? 1 : 0 elements; when b is false f is never invoked however often the view is pulled; when b is true its one element is f() and f runs at most once |
| ForEachView.Bind | include/range/v3/view/for_each.hpp:170-178 | rng >>= f yields exactly the sequence of for_each(rng, f) |
| ForEachView.BindLeftIdentity | include/range/v3/view/for_each.hpp:170-178 | yield(v) >>= f is f(v) |
| ForEachView.BindRightIdentity | include/range/v3/view/for_each.hpp:170-178 | s >>= yield is s |
| ForEachView.BindAssociative | include/range/v3/view/for_each.hpp:170-178 | (s >>= f) >>= g is s >>= (x -> f(x) >>= g) |
| PairViews.Tag | include/range/v3/view/map.hpp:50-53 | an lvalue pair expression always selects the reference branch; a non-lvalue pair selects it exactly when the member's declared type is an lvalue reference |
| PairViews.GetFirstSecondHelper | include/range/v3/view/map.hpp:33-48 | the helper returns the component's value; it is an alias of the component's position exactly when the tag is true, writable only when the component is not const, and a moved-out value otherwise |
| PairViews.GetFirst | include/range/v3/view/map.hpp:55-63 | get_first yields the element's first component, as an alias iff the pair expression or the declared type of first is an lvalue reference, and that alias is writable iff first is not const |
| PairViews.GetSecond | include/range/v3/view/map.hpp:65-73 | get_second yields the element's second component, as an alias iff the pair expression or the declared type of second is an lvalue reference, and that alias is writable iff second is not const |
| PairViews.KeysView | include/range/v3/view/map.hpp:75-119 | keys is accepted exactly for an input range whose reference type is pair-like (`IsPairLike`: both `first` and `second` accessors apply), with one accessor per element holding that element's first, in order; any other range is rejected with a diagnostic naming each unmet requirement |
| PairViews.ValuesView | include/range/v3/view/map.hpp:121-151 | the same for values and the second component |
| PairViews.Keys | include/range/v3/view/map.hpp:97-105 | the keys sequence has the source's length and holds s[i].first at every position i |
| PairViews.Values | include/range/v3/view/map.hpp:129-137 | the values sequence has the source's length and holds s[i].second at every position i |
| PairViews.KeysValuesRoundTrip | include/range/v3/view/map.hpp:97-105 | keys and values keep the source's length and order, and zipping them rebuilds the source |
| PairViews.ZipRoundTrip | include/range/v3/view/map.hpp:129-137 | keys and values of a zipped sequence return the two inputs |
| PairViews.KeysAliasSource | include/range/v3/view/map.hpp:33-38 | when keys hands out aliases into lvalue pairs whose `first` is neither a reference member nor const, writing through the i-th one changes the source's key at i only, no value, and a keys view over the source reads the new key |
| PairViews.ValuesAliasSource | include/range/v3/view/map.hpp:33-38 | the same for values whose `second` is neither a reference member nor const: only the value at i changes |
| PairViews.PairViewsMoveFromTemporaries | include/range/v3/view/map.hpp:40-48 | from a temporary pair with non-reference members, every accessor is a moved-out copy of the component and no alias escapes |
| ReplaceAlgorithm.ReplaceSpec | include/range/v3/algorithm/replace.hpp:49-51 | same length; every element whose projection matches becomes the new value, every other element is kept |
| ReplaceAlgorithm.Replace | include/range/v3/algorithm/replace.hpp:44-53 | the pass over [begin, end) returns end, leaves positions outside the range alone and applies the replacement to those inside; the loop steps one position forward at a time, so each position is visited once, in increasing order, before any write to it |
| ReplaceAlgorithm.ReplaceRange | include/range/v3/algorithm/replace.hpp:55-61 | the whole-range form is the pass over [0, length), returns the length and leaves the array's length unchanged |
| ReplaceAlgorithm.ReplaceNoMatch | include/range/v3/algorithm/replace.hpp:49-51 | if no projection matches, the sequence is unchanged |
| ReplaceAlgorithm.ReplaceIdempotent | include/range/v3/algorithm/replace.hpp:49-51 | a second identical pass changes nothing |
| ReplaceAlgorithm.ReplaceAppend | include/range/v3/algorithm/replace.hpp:44-53 | a pass over a concatenation is the two passes side by side |

## Left out

- Cursor protocols of join, transform, single, repeat_n, generate_n and all: only the sequences they denote are modelled, since their headers are not part of this model.
- Laziness in general: it is kept only as the number of generator calls of a generate_n view (`Views.Invocations`, one call per element reached). That is how `lazy_yield_if` with a false condition is shown never to call its function.
- TransformableRange is defined in transform.hpp, which is not part of this model. It is taken to be "input range, copyable function, callable on the reference type". Any further requirement it may add is not modelled.
- `operator>>=` has its own constraints: Range, not InputRange, and the common reference type. When they fail, no overload is found and no diagnostic is printed. `ForEachView.Bind` is modelled unconditionally as the alias of for_each.
- Several constraints carry no message: the static assertion `Invocable<F&>` in `lazy_yield_if`, the Replaceable concept of replace, and the MoveConstructible requirement of the move branch of `get_first_second_helper`. The Dafny parameter types express them (`() -> T`, `proj: T -> U` with `U(==)`, `newValue: T`).
- ForEachView.YieldFrom: the `View<Rng>` constraint of `yield_from` is not modelled, and any sequence is accepted. A Dafny `seq` does not distinguish a view from a container.
- Pipe and binding plumbing (`make_pipeable`, `std::bind`, `protect`, `view<…>`, `with_braced_init_args`) and the inline function-object variables: these are ergonomic wrappers with no effect on the sequences produced.
- `noexcept` specifications and real value categories: these are reduced to the boolean tag and the `Borrowed`/`Moved` access.
- ReplaceAlgorithm.ReplaceRange: the source's return type is `safe_iterator_t<Rng>`, which for an rvalue range is a `dangling` wrapper rather than a usable position. The model always returns the end position `a.Length`.
- ForEachView.CheckedForEach: the four type facts are independent booleans. In the source, the third and fourth assertions name `range_reference_t<Rng>` and `invoke_result_t<Fun&, …>`. When those types do not exist (Rng is not a range, or Fun is not invocable), compilation stops with a hard error and those messages are never printed. The model still lists `Invocable` or `ResultInputRange` among the diagnostics in that case.
- PairViews.KeysAliasSource: says nothing when `first` is itself a reference member (a tag made true by the member's declared type, as in a range of pairs of references). Such an alias points at storage outside the pair, which may also be the `second` component of the same or another element, so "only key i changes" need not hold. The alias-versus-move choice for that case is still stated by `PairViews.GetFirst` and `PairViews.KeysView`.
- PairViews.ValuesAliasSource: the same restriction for a reference `second`.
- ReplaceAlgorithm.Replace: `oldValue` and `newValue` are taken by value. The source takes them by const reference and reads `old_value` again at every step, so an `old_value` that refers to an element of the range being replaced changes which later elements match. For example, with `old_value` bound to `v[0]` and `v = [1, 2, 1]`, replacing with 9 leaves `[9, 2, 1]`, where the model gives `[9, 2, 9]`. The same holds for `ReplaceAlgorithm.ReplaceRange` and `ReplaceAlgorithm.ReplaceSpec`.
- ReplaceAlgorithm.Replace: the source accepts any reachable sentinel. The model uses array positions, `begin <= end <= a.Length`.
- PairViews.PairViewsMoveFromTemporaries: the model never changes the source when a component is moved out. When the range's reference type is `pair&&` (a range adapted by `view::move`, for instance), the source moves the component out of the stored pair and leaves it in a moved-from state. The model keeps the stored pair as it was, so reading it again gives the same value.

=== FILE: concepts.dfy ===
/** The capability checks of the library, reduced to their run-time meaning.
    In the library a call whose types do not satisfy a concept is routed to a
    second overload that fires one static assertion per unmet requirement; here
    each such assertion becomes a `Diagnostic` naming the operation and the
    requirement it reports. */
module Concepts {

  /** The constrained operation whose overload reported the failure. */
  datatype Origin = ForEachOp | YieldOp | KeysOp | ValuesOp

  /** The requirement a diagnostic names. */
  datatype Requirement =
    | InputRange          // the argument is not an input range
    | CopyConstructible   // the function or value cannot be copied
    | Invocable           // the function cannot be called with the range's reference type
    | ResultInputRange    // the function's result is not an input range
    | Initializable       // the value type cannot be built from the argument expression
    | PairLike            // the reference type has no `first`/`second` members

  datatype Diagnostic = Diagnostic(origin: Origin, unmet: Requirement)

  /** One static assertion with a message: silent when `holds`, otherwise a
      single diagnostic for `req`. */
  function AssertMsg(origin: Origin, holds: bool, req: Requirement): (r: seq<Diagnostic>)
    ensures r == [] <==> holds
    ensures |r| <= 1
    ensures forall d :: d in r ==> d == Diagnostic(origin, req)
  {
    if holds then [] else [Diagnostic(origin, req)]
  }
}

=== FILE: for_each.dfy ===
/** view::for_each, the yield helpers and `operator>>=`: the list-monad bind
    over sequences, built as join after transform. */
module ForEachView {
  import opened Results
  import opened Concepts
  import opened Views

  /** The type-level facts `for_each` checks about its arguments. */
  datatype ForEachTypes = ForEachTypes(
    rangeIsInput: bool,         // the source is an input range
    funIsCopyConstructible: bool,
    funIsInvocable: bool,       // callable with the source's reference type
    resultIsInput: bool)        // what the function returns is an input range

  /** TransformableRange: the source, the function and the call line up. */
  predicate TransformableRange(t: ForEachTypes) {
    t.rangeIsInput && t.funIsCopyConstructible && t.funIsInvocable
  }

  predicate ForEachViewConcept(t: ForEachTypes) {
    TransformableRange(t) && t.resultIsInput
  }

  /** for_each(s, f): map every element to a sub-sequence, then flatten. */
  function ForEach<A, B>(s: seq<A>, f: A -> seq<B>): (r: seq<B>)
    ensures |r| == TotalLength(Transform(s, f))
  {
    JoinLength(Transform(s, f));
    Join(Transform(s, f))
  }

  /** The diagnostics overload: each of its four assertions fires on its own. */
  function ForEachDiagnostics(t: ForEachTypes): seq<Diagnostic>
  {
    AssertMsg(ForEachOp, t.rangeIsInput, InputRange)
    + AssertMsg(ForEachOp, t.funIsCopyConstructible, CopyConstructible)
    + AssertMsg(ForEachOp, t.funIsInvocable, Invocable)
    + AssertMsg(ForEachOp, t.resultIsInput, ResultInputRange)
  }

  /** The call `view::for_each(s, f)` as overload resolution picks it: the view
      when the concept holds, otherwise the diagnostics of every unmet part. */
  function CheckedForEach<A, B>(t: ForEachTypes, s: seq<A>, f: A -> seq<B>)
    : (r: Result<seq<B>, seq<Diagnostic>>)
    ensures r.Success? <==> ForEachViewConcept(t)
    ensures r.Success? ==> r.value == Join(Transform(s, f))
    ensures r.Failure? ==> r.error != []
    ensures r.Failure? ==> forall d :: d in r.error ==> d.origin == ForEachOp
    ensures r.Failure? ==>
      && (Diagnostic(ForEachOp, InputRange) in r.error <==> !t.rangeIsInput)
      && (Diagnostic(ForEachOp, CopyConstructible) in r.error <==> !t.funIsCopyConstructible)
      && (Diagnostic(ForEachOp, Invocable) in r.error <==> !t.funIsInvocable)
      && (Diagnostic(ForEachOp, ResultInputRange) in r.error <==> !t.resultIsInput)
  {
    if ForEachViewConcept(t) then Success(ForEach(s, f)) else Failure(ForEachDiagnostics(t))
  }

  /** yield(v): the single-element view of `v`. */
  function Yield<T>(v: T): (r: seq<T>)
    ensures |r| == 1 && r[0] == v
  {
    Single(v)
  }

  /** The type-level facts `yield` checks about its argument. */
  datatype YieldTypes = YieldTypes(
    valueIsCopyConstructible: bool,   // the decayed argument type can be copied
    valueIsInitializable: bool)       // and built from the argument expression

  /** `yield(v)` as overload resolution picks it. The second assertion only
      speaks when the first is silent, so a rejection carries one reason. */
  function CheckedYield<T>(t: YieldTypes, v: T): (r: Result<seq<T>, seq<Diagnostic>>)
    ensures r.Success? <==> t.valueIsCopyConstructible && t.valueIsInitializable
    ensures r.Success? ==> r.value == [v]
    ensures r.Failure? ==> |r.error| == 1
    ensures r.Failure? ==>
              r.error[0] == Diagnostic(YieldOp, if t.valueIsCopyConstructible then Initializable else CopyConstructible)
  {
    if t.valueIsCopyConstructible && t.valueIsInitializable then
      Success(Yield(v))
    else
      Failure(AssertMsg(YieldOp, t.valueIsCopyConstructible, CopyConstructible)
              + AssertMsg(YieldOp, !t.valueIsCopyConstructible || t.valueIsInitializable, Initializable))
  }

  /** yield_from(r): the view itself, spliced in unwrapped. */
  function YieldFrom<T>(rng: seq<T>): (r: seq<T>)
    ensures r == rng
  {
    rng
  }

  /** yield_if(b, v): `v` once if `b`, else nothing; `v` is evaluated by the
      caller whatever `b` is. */
  function YieldIf<T>(b: bool, v: T): (r: seq<T>)
    ensures b ==> r == [v]
    ensures !b ==> r == []
  {
    RepeatN(v, if b then 1 else 0)
  }

  /** lazy_yield_if(b, f): a generate_n view over `f` with one element if `b`
      and none otherwise; `f` is called only when that element is reached. */
  function LazyYieldIf<T>(b: bool, f: () -> T): (r: GenerateNView<T>)
    ensures |Elements(r)| == (if b then 1 else 0)
    ensures b ==> Elements(r) == [f()]
    ensures !b ==> forall pulls: nat :: Invocations(r, pulls) == 0
    ensures b ==> forall pulls: nat :: Invocations(r, pulls) == (if pulls == 0 then 0 else 1)
  {
    GenerateNView(f, if b then 1 else 0)
  }

  /** `rng >>= f`, an alias for `view::for_each(rng, f)`. */
  function Bind<A, B>(s: seq<A>, f: A -> seq<B>): (r: seq<B>)
    ensures r == ForEach(s, f)
  {
    ForEach(s, f)
  }

  /** The reference meaning of selecting the elements that satisfy `p`. */
  function Filter<T>(s: seq<T>, p: T -> bool): seq<T>
  {
    if |s| == 0 then [] else (if p(s[0]) then [s[0]] else []) + Filter(s[1..], p)
  }

  // ---------------------------------------------------------------------
  // Laws of for_each

  lemma ForEachEmpty<A, B>(f: A -> seq<B>)
    ensures ForEach([], f) == []
  {
  }

  /** for_each distributes over concatenation of the source. */
  lemma ForEachAppend<A, B>(a: seq<A>, b: seq<A>, f: A -> seq<B>)
    ensures ForEach(a + b, f) == ForEach(a, f) + ForEach(b, f)
  {
    TransformAppend(a, b, f);
    JoinAppend(Transform(a, f), Transform(b, f));
  }

  lemma ForEachSingleton<A, B>(x: A, f: A -> seq<B>)
    ensures ForEach([x], f) == f(x)
  {
    assert Transform([x], f) == [f(x)];
    assert Join([f(x)]) == f(x) + Join([]);
  }

  lemma ForEachCons<A, B>(s: seq<A>, f: A -> seq<B>)
    requires |s| > 0
    ensures ForEach(s, f) == f(s[0]) + ForEach(s[1..], f)
  {
    assert s == [s[0]] + s[1..];
    ForEachAppend([s[0]], s[1..], f);
    ForEachSingleton(s[0], f);
  }

  /** The sub-sequence of element `i` appears whole, after those of the
      elements before it and before those of the elements after it. */
  lemma ForEachSplit<A, B>(s: seq<A>, f: A -> seq<B>, i: nat)
    requires i < |s|
    ensures ForEach(s, f) == ForEach(s[..i], f) + f(s[i]) + ForEach(s[i + 1..], f)
  {
    assert s == s[..i] + [s[i]] + s[i + 1..];
    ForEachAppend(s[..i] + [s[i]], s[i + 1..], f);
    ForEachAppend(s[..i], [s[i]], f);
    ForEachSingleton(s[i], f);
  }

  /** Element `j` of the sub-sequence of element `i` lands right after all
      the elements the sub-sequences of `s[..i]` contributed. */
  lemma ForEachOrigin<A, B>(s: seq<A>, f: A -> seq<B>, i: nat, j: nat)
    requires i < |s| && j < |f(s[i])|
    ensures TotalLength(Transform(s[..i], f)) + j < |ForEach(s, f)|
    ensures ForEach(s, f)[TotalLength(Transform(s[..i], f)) + j] == f(s[i])[j]
  {
    assert Transform(s, f)[..i] == Transform(s[..i], f);
    JoinIndex(Transform(s, f), i, j);
  }

  /** An element whose sub-sequence is empty contributes nothing. */
  lemma ForEachSkipsEmpty<A, B>(s: seq<A>, f: A -> seq<B>, i: nat)
    requires i < |s| && f(s[i]) == []
    ensures ForEach(s, f) == ForEach(s[..i] + s[i + 1..], f)
  {
    ForEachSplit(s, f, i);
    ForEachAppend(s[..i], s[i + 1..], f);
  }

  // ---------------------------------------------------------------------
  // Laws of the yield helpers and of >>=

  /** yield is a right identity: splicing every element back as a single
      view gives the source. */
  lemma {:induction false} ForEachYield<T>(s: seq<T>)
    ensures ForEach(s, x => Yield(x)) == s
  {
    if |s| > 0 {
      ForEachCons(s, x => Yield(x));
      ForEachYield(s[1..]);
    }
  }

  /** Wrapping the body's result in yield_from changes nothing. */
  lemma {:induction false} ForEachYieldFrom<A, B>(s: seq<A>, f: A -> seq<B>)
    ensures ForEach(s, x => YieldFrom(f(x))) == ForEach(s, f)
  {
    if |s| > 0 {
      ForEachCons(s, x => YieldFrom(f(x)));
      ForEachCons(s, f);
      ForEachYieldFrom(s[1..], f);
    }
  }

  /** for_each with a yield_if body is a filter. */
  lemma {:induction false} ForEachYieldIf<T>(s: seq<T>, p: T -> bool)
    ensures ForEach(s, x => YieldIf(p(x), x)) == Filter(s, p)
  {
    if |s| > 0 {
      ForEachCons(s, x => YieldIf(p(x), x));
      ForEachYieldIf(s[1..], p);
    }
  }

  /** `>>=` yields exactly the elements of for_each, so it inherits the monad
      laws: yield is a left identity ... */
  lemma BindLeftIdentity<A, B>(v: A, f: A -> seq<B>)
    ensures Bind(Yield(v), f) == f(v)
  {
    ForEachSingleton(v, f);
  }

  /** ... a right identity ... */
  lemma BindRightIdentity<T>(s: seq<T>)
    ensures Bind(s, x => Yield(x)) == s
  {
    ForEachYield(s);
  }

  /** ... and binding is associative. */
  lemma {:induction false} BindAssociative<A, B, C>(s: seq<A>, f: A -> seq<B>, g: B -> seq<C>)
    ensures Bind(Bind(s, f), g) == Bind(s, x => Bind(f(x), g))
  {
    var h := x => Bind(f(x), g);
    if |s| == 0 {
    } else {
      ForEachCons(s, f);
      ForEachAppend(f(s[0]), ForEach(s[1..], f), g);
      BindAssociative(s[1..], f, g);
      ForEachCons(s, h);
    }
  }
}

=== FILE: map.dfy ===
/** view::keys and view::values: the first or second component of every
    pair-like element, handed out as an alias of the component (for a
    reference member, of the object it refers to) or as a value moved out of
    the pair expression. */
module PairViews {
  import opened Results
  import opened Concepts
  import opened Views

  datatype Pair<K, V> = Pair(first: K, second: V)

  /** What an accessor returns: an alias of the component of the element at
      `index` of the source (for a reference member, of the object it refers
      to), which writes can go through unless the component is const; or a
      value moved out of the pair expression, when that expression is not an
      lvalue and the member is not declared as an lvalue reference, which
      refers to nothing. */
  datatype Access<T> = Borrowed(index: nat, value: T, writable: bool) | Moved(value: T)

  /** The type-level facts the views depend on. */
  datatype RangeTypes = RangeTypes(
    isInputRange: bool,
    hasFirst: bool,              // the reference type has a `first` member
    hasSecond: bool,             // and a `second` member
    referenceIsLvalueRef: bool,  // dereferencing yields an lvalue reference to a pair
    firstIsLvalueRef: bool,      // the declared type of `first` is an lvalue reference
    secondIsLvalueRef: bool,     // the declared type of `second` is an lvalue reference
    firstIsConst: bool,          // the expression `p.first` is const-qualified
    secondIsConst: bool)         // the expression `p.second` is const-qualified

  /** get_first_second_tag: alias the component exactly when the pair
      expression or the member's declared type is an lvalue reference. */
  function Tag(pairIsLvalueRef: bool, memberIsLvalueRef: bool): (r: bool)
    ensures pairIsLvalueRef ==> r
    ensures !pairIsLvalueRef ==> (r <==> memberIsLvalueRef)
  {
    pairIsLvalueRef || memberIsLvalueRef
  }

  /** get_first_second_helper: return the component `t`, found at `index`
      of the source, by reference when `tag` holds and by move otherwise; the
      reference is to a const component when `isConst`. */
  function GetFirstSecondHelper<T>(index: nat, t: T, isConst: bool, tag: bool): (r: Access<T>)
    ensures r.value == t
    ensures r.Borrowed? <==> tag
    ensures r.Borrowed? ==> r.index == index && (r.writable <==> !isConst)
  {
    if tag then Borrowed(index, t, !isConst) else Moved(t)
  }

  /** get_first applied to the element at position `i`. */
  function GetFirst<K, V>(t: RangeTypes, s: seq<Pair<K, V>>, i: nat): (r: Access<K>)
    requires i < |s|
    ensures r.value == s[i].first
    ensures r.Borrowed? <==> t.referenceIsLvalueRef || t.firstIsLvalueRef
    ensures r.Borrowed? ==> r.index == i && (r.writable <==> !t.firstIsConst)
  {
    GetFirstSecondHelper(i, s[i].first, t.firstIsConst, Tag(t.referenceIsLvalueRef, t.firstIsLvalueRef))
  }

  /** get_second applied to the element at position `i`. */
  function GetSecond<K, V>(t: RangeTypes, s: seq<Pair<K, V>>, i: nat): (r: Access<V>)
    requires i < |s|
    ensures r.value == s[i].second
    ensures r.Borrowed? <==> t.referenceIsLvalueRef || t.secondIsLvalueRef
    ensures r.Borrowed? ==> r.index == i && (r.writable <==> !t.secondIsConst)
  {
    GetFirstSecondHelper(i, s[i].second, t.secondIsConst, Tag(t.referenceIsLvalueRef, t.secondIsLvalueRef))
  }

  /** PairLike: both accessors can be called on the reference type. */
  predicate IsPairLike(t: RangeTypes) {
    t.hasFirst && t.hasSecond
  }

  /** KeysViewConcept and ValuesViewConcept (the two are the same). */
  predicate PairViewConcept(t: RangeTypes) {
    t.isInputRange && IsPairLike(t)
  }

  /** The assertions of the rejecting overload of keys or values. */
  function PairViewDiagnostics(origin: Origin, t: RangeTypes): seq<Diagnostic>
  {
    AssertMsg(origin, t.isInputRange, InputRange) + AssertMsg(origin, IsPairLike(t), PairLike)
  }

  /** The component values alone: the sequence `keys` denotes. */
  function Keys<K, V>(s: seq<Pair<K, V>>): (r: seq<K>)
    ensures |r| == |s|
    ensures forall i :: 0 <= i < |s| ==> r[i] == s[i].first
  {
    Transform(s, (p: Pair<K, V>) => p.first)
  }

  /** The sequence `values` denotes. */
  function Values<K, V>(s: seq<Pair<K, V>>): (r: seq<V>)
    ensures |r| == |s|
    ensures forall i :: 0 <= i < |s| ==> r[i] == s[i].second
  {
    Transform(s, (p: Pair<K, V>) => p.second)
  }

  /** view::keys(s): the view of accessors to every `first`, or the reasons
      the range was rejected. */
  function KeysView<K, V>(t: RangeTypes, s: seq<Pair<K, V>>)
    : (r: Result<seq<Access<K>>, seq<Diagnostic>>)
    ensures r.Success? <==> t.isInputRange && t.hasFirst && t.hasSecond
    ensures r.Success? ==> |r.value| == |s|
    ensures r.Success? ==> forall i :: 0 <= i < |s| ==> r.value[i].value == Keys(s)[i]
    ensures r.Success? ==> forall i :: 0 <= i < |s| ==>
                             (r.value[i].Borrowed? <==> Tag(t.referenceIsLvalueRef, t.firstIsLvalueRef))
    ensures r.Success? ==> forall i :: 0 <= i < |s| && r.value[i].Borrowed? ==>
                             r.value[i].index == i && (r.value[i].writable <==> !t.firstIsConst)
    ensures r.Failure? ==> r.error != [] && forall d :: d in r.error ==> d.origin == KeysOp
    ensures r.Failure? ==>
              && (Diagnostic(KeysOp, InputRange) in r.error <==> !t.isInputRange)
              && (Diagnostic(KeysOp, PairLike) in r.error <==> !IsPairLike(t))
  {
    if PairViewConcept(t) then
      Success(seq(|s|, i requires 0 <= i < |s| => GetFirst(t, s, i)))
    else
      Failure(PairViewDiagnostics(KeysOp, t))
  }

  /** view::values(s): the view of accessors to every `second`, or the
      reasons the range was rejected. */
  function ValuesView<K, V>(t: RangeTypes, s: seq<Pair<K, V>>)
    : (r: Result<seq<Access<V>>, seq<Diagnostic>>)
    ensures r.Success? <==> t.isInputRange && t.hasFirst && t.hasSecond
    ensures r.Success? ==> |r.value| == |s|
    ensures r.Success? ==> forall i :: 0 <= i < |s| ==> r.value[i].value == Values(s)[i]
    ensures r.Success? ==> forall i :: 0 <= i < |s| ==>
                             (r.value[i].Borrowed? <==> Tag(t.referenceIsLvalueRef, t.secondIsLvalueRef))
    ensures r.Success? ==> forall i :: 0 <= i < |s| && r.value[i].Borrowed? ==>
                             r.value[i].index == i && (r.value[i].writable <==> !t.secondIsConst)
    ensures r.Failure? ==> r.error != [] && forall d :: d in r.error ==> d.origin == ValuesOp
    ensures r.Failure? ==>
              && (Diagnostic(ValuesOp, InputRange) in r.error <==> !t.isInputRange)
              && (Diagnostic(ValuesOp, PairLike) in r.error <==> !IsPairLike(t))
  {
    if PairViewConcept(t) then
      Success(seq(|s|, i requires 0 <= i < |s| => GetSecond(t, s, i)))
    else
      Failure(PairViewDiagnostics(ValuesOp, t))
  }

  /** Pairing up keys and values element by element. */
  function Zip<K, V>(ks: seq<K>, vs: seq<V>): (r: seq<Pair<K, V>>)
    requires |ks| == |vs|
  {
    seq(|ks|, i requires 0 <= i < |ks| => Pair(ks[i], vs[i]))
  }

  /** keys and values together lose nothing: zipping them rebuilds the source,
      and both keep its length and order. */
  lemma KeysValuesRoundTrip<K, V>(s: seq<Pair<K, V>>)
    ensures |Keys(s)| == |Values(s)| == |s|
    ensures Zip(Keys(s), Values(s)) == s
  {
  }

  /** ... and conversely, keys and values of zipped sequences give them back. */
  lemma ZipRoundTrip<K, V>(ks: seq<K>, vs: seq<V>)
    requires |ks| == |vs|
    ensures Keys(Zip(ks, vs)) == ks && Values(Zip(ks, vs)) == vs
  {
  }

  /** Assigning `k` through a borrowed, non-const `first`: only that
      component of that element of the source changes. */
  function AssignFirst<K, V>(s: seq<Pair<K, V>>, a: Access<K>, k: K): (r: seq<Pair<K, V>>)
    requires a.Borrowed? && a.writable && a.index < |s|
    ensures |r| == |s|
    ensures r[a.index].first == k && r[a.index].second == s[a.index].second
    ensures forall j :: 0 <= j < |s| && j != a.index ==> r[j] == s[j]
  {
    s[a.index := Pair(k, s[a.index].second)]
  }

  /** Assigning `v` through a borrowed `second`. */
  function AssignSecond<K, V>(s: seq<Pair<K, V>>, a: Access<V>, v: V): (r: seq<Pair<K, V>>)
    requires a.Borrowed? && a.writable && a.index < |s|
    ensures |r| == |s|
    ensures r[a.index].second == v && r[a.index].first == s[a.index].first
    ensures forall j :: 0 <= j < |s| && j != a.index ==> r[j] == s[j]
  {
    s[a.index := Pair(s[a.index].first, v)]
  }

  /** When the range yields lvalue pairs whose `first` is stored in the pair
      (not a reference member, which could alias storage outside it) and is
      not const, keys hands out aliases into the stored pairs. A write through
      the `i`-th one is seen by the source: its keys change at `i` alone and
      its values not at all, and a fresh keys view over it reads the new key. */
  lemma KeysAliasSource<K, V>(t: RangeTypes, s: seq<Pair<K, V>>, i: nat, k: K)
    requires PairViewConcept(t) && Tag(t.referenceIsLvalueRef, t.firstIsLvalueRef)
    requires !t.firstIsLvalueRef && !t.firstIsConst && i < |s|
    ensures KeysView(t, s).value[i].Borrowed? && KeysView(t, s).value[i].writable
    ensures var s' := AssignFirst(s, KeysView(t, s).value[i], k);
            && Keys(s') == Keys(s)[i := k]
            && Values(s') == Values(s)
            && KeysView(t, s').value[i].value == k
  {
  }

  /** The same for values whose `second` is stored in the pair and not const. */
  lemma ValuesAliasSource<K, V>(t: RangeTypes, s: seq<Pair<K, V>>, i: nat, v: V)
    requires PairViewConcept(t) && Tag(t.referenceIsLvalueRef, t.secondIsLvalueRef)
    requires !t.secondIsLvalueRef && !t.secondIsConst && i < |s|
    ensures ValuesView(t, s).value[i].Borrowed? && ValuesView(t, s).value[i].writable
    ensures var s' := AssignSecond(s, ValuesView(t, s).value[i], v);
            && Values(s') == Values(s)[i := v]
            && Keys(s') == Keys(s)
            && ValuesView(t, s').value[i].value == v
  {
  }

  /** When the pair expression is not an lvalue and the member is not a
      reference, every accessor is a value moved out of the component: no
      alias escapes. */
  lemma PairViewsMoveFromTemporaries<K, V>(t: RangeTypes, s: seq<Pair<K, V>>)
    requires PairViewConcept(t) && !t.referenceIsLvalueRef
    ensures !t.firstIsLvalueRef ==>
              forall i :: 0 <= i < |s| ==> KeysView(t, s).value[i] == Moved(s[i].first)
    ensures !t.secondIsLvalueRef ==>
              forall i :: 0 <= i < |s| ==> ValuesView(t, s).value[i] == Moved(s[i].second)
  {
  }
}

=== FILE: replace.dfy ===
/** ranges::replace: overwrite, in place, every element whose projection
    equals `oldValue` with `newValue`, in one forward pass, and return the
    end position. The Replaceable concept (readable input iterator,
    projection comparable with `oldValue`, element writable with `newValue`)
    is carried by the Dafny types of the parameters. */
module ReplaceAlgorithm {
  import opened Views

  /** The fate of one element: replaced when its projection matches. */
  function Replaced<T, U(==)>(x: T, oldValue: U, newValue: T, proj: T -> U): T
  {
    if proj(x) == oldValue then newValue else x
  }

  /** What a whole pass turns a sequence into. */
  function ReplaceSpec<T, U(==)>(s: seq<T>, oldValue: U, newValue: T, proj: T -> U): (r: seq<T>)
    ensures |r| == |s|
    ensures forall i :: 0 <= i < |s| && proj(s[i]) == oldValue ==> r[i] == newValue
    ensures forall i :: 0 <= i < |s| && proj(s[i]) != oldValue ==> r[i] == s[i]
  {
    Transform(s, x => Replaced(x, oldValue, newValue, proj))
  }

  /** The iterator/sentinel overload on the positions [begin, end) of `a`.
      The loop moves one position forward per step, so each position is
      visited once, in increasing order, and compared using the value it
      holds when visited, which no earlier step has changed. */
  method Replace<T, U(==)>(a: array<T>, begin: nat, end: nat, oldValue: U, newValue: T, proj: T -> U)
    returns (pos: nat)
    requires begin <= end <= a.Length
    modifies a
    ensures pos == end
    ensures a[..begin] == old(a[..begin]) && a[end..] == old(a[end..])
    ensures a[begin..end] == ReplaceSpec(old(a[begin..end]), oldValue, newValue, proj)
  {
    pos := begin;
    while pos != end
      invariant begin <= pos <= end
      invariant forall i :: 0 <= i < a.Length && !(begin <= i < pos) ==> a[i] == old(a[i])
      invariant forall i :: begin <= i < pos ==> a[i] == Replaced(old(a[i]), oldValue, newValue, proj)
      decreases end - pos
    {
      if proj(a[pos]) == oldValue {
        a[pos] := newValue;
      }
      pos := pos + 1;
    }
    assert a[begin..end] == ReplaceSpec(old(a[begin..end]), oldValue, newValue, proj);
  }

  /** The whole-range overload: the iterator overload from the first to the
      last position of `a`. */
  method ReplaceRange<T, U(==)>(a: array<T>, oldValue: U, newValue: T, proj: T -> U) returns (pos: nat)
    modifies a
    ensures pos == a.Length
    ensures a[..] == ReplaceSpec(old(a[..]), oldValue, newValue, proj)
  {
    ghost var before := a[..];
    pos := Replace(a, 0, a.Length, oldValue, newValue, proj);
    assert a[..] == a[0..a.Length] && before == before[0..a.Length];
  }

  /** A pass where nothing matches leaves the sequence as it was. */
  lemma ReplaceNoMatch<T, U>(s: seq<T>, oldValue: U, newValue: T, proj: T -> U)
    requires forall i :: 0 <= i < |s| ==> proj(s[i]) != oldValue
    ensures ReplaceSpec(s, oldValue, newValue, proj) == s
  {
  }

  /** A second pass changes nothing: whatever the first pass wrote either no
      longer matches or is overwritten with the same value. */
  lemma ReplaceIdempotent<T, U>(s: seq<T>, oldValue: U, newValue: T, proj: T -> U)
    ensures var r := ReplaceSpec(s, oldValue, newValue, proj);
            ReplaceSpec(r, oldValue, newValue, proj) == r
  {
  }

  /** A pass over a concatenation is the two passes side by side, which is
      why the iterator overload on a sub-range leaves the rest alone. */
  lemma ReplaceAppend<T, U>(a: seq<T>, b: seq<T>, oldValue: U, newValue: T, proj: T -> U)
    ensures ReplaceSpec(a + b, oldValue, newValue, proj)
         == ReplaceSpec(a, oldValue, newValue, proj) + ReplaceSpec(b, oldValue, newValue, proj)
  {
  }
}

=== FILE: results.dfy ===
/** The outcome of a constrained call: the value it builds, or the build-time
    diagnostics that the library reports instead. */
module Results {

  datatype Result<+T, +E> = Success(value: T) | Failure(error: E)
}

=== FILE: views.dfy ===
/** The primitive views that `for_each` and the yield helpers are built from
    (transform, join, single, repeat_n, generate_n), given by the sequence each
    one denotes once it is driven to its end. Their cursor machinery is not
    modelled. */
module Views {

  /** transform(s, f): the element at each position is `f` of the source
      element at that position. */
  function Transform<A, B>(s: seq<A>, f: A -> B): (r: seq<B>)
    ensures |r| == |s|
    ensures forall i :: 0 <= i < |s| ==> r[i] == f(s[i])
  {
    seq(|s|, i requires 0 <= i < |s| => f(s[i]))
  }

  /** join(ss): the inner sequences concatenated, outer order first, then the
      order inside each inner sequence; empty inner sequences leave no trace. */
  function Join<T>(ss: seq<seq<T>>): seq<T>
  {
    if |ss| == 0 then [] else ss[0] + Join(ss[1..])
  }

  /** The sum of the lengths of the inner sequences. */
  function TotalLength<T>(ss: seq<seq<T>>): nat
  {
    if |ss| == 0 then 0 else |ss[0]| + TotalLength(ss[1..])
  }

  /** single(v): the one-element view. */
  function Single<T>(v: T): (r: seq<T>)
    ensures |r| == 1 && r[0] == v
  {
    [v]
  }

  /** repeat_n(v, n): `v`, already evaluated, `n` times. */
  function RepeatN<T>(v: T, n: nat): (r: seq<T>)
    ensures |r| == n
    ensures forall i :: 0 <= i < n ==> r[i] == v
  {
    seq(n, _ => v)
  }

  /** generate_n(gen, n) before it is driven: it holds the generator and the
      count, and has called nothing yet. */
  datatype GenerateNView<T> = GenerateNView(gen: () -> T, count: nat)

  /** The elements a generate_n view yields when driven to its end. */
  function Elements<T>(g: GenerateNView<T>): (r: seq<T>)
    ensures |r| == g.count
    ensures forall i :: 0 <= i < |r| ==> r[i] == g.gen()
  {
    seq(g.count, _ => g.gen())
  }

  /** How many times the generator has run after `pulls` elements were
      requested: once per element actually reached, never past the count. */
  function Invocations<T>(g: GenerateNView<T>, pulls: nat): (n: nat)
    ensures n <= pulls && n <= g.count
    ensures n == pulls || n == g.count
  {
    if pulls < g.count then pulls else g.count
  }

  lemma TransformAppend<A, B>(a: seq<A>, b: seq<A>, f: A -> B)
    ensures Transform(a + b, f) == Transform(a, f) + Transform(b, f)
  {
  }

  /** Joining is a homomorphism from concatenation of outer sequences to
      concatenation of results. */
  lemma {:induction false} JoinAppend<T>(a: seq<seq<T>>, b: seq<seq<T>>)
    ensures Join(a + b) == Join(a) + Join(b)
  {
    if |a| == 0 {
      assert a + b == b;
    } else {
      assert (a + b)[1..] == a[1..] + b;
      JoinAppend(a[1..], b);
    }
  }

  lemma {:induction false} JoinLength<T>(ss: seq<seq<T>>)
    ensures |Join(ss)| == TotalLength(ss)
  {
    if |ss| != 0 {
      JoinLength(ss[1..]);
    }
  }

  /** Element `j` of inner sequence `i` sits in the joined sequence right after
      everything the inner sequences before `i` contributed. */
  lemma {:induction false} JoinIndex<T>(ss: seq<seq<T>>, i: nat, j: nat)
    requires i < |ss| && j < |ss[i]|
    ensures TotalLength(ss[..i]) + j < |Join(ss)|
    ensures Join(ss)[TotalLength(ss[..i]) + j] == ss[i][j]
  {
    JoinLength(ss);
    if i == 0 {
      assert ss[..0] == [];
    } else {
      assert ss[..i][1..] == ss[1..][..i - 1];
      JoinIndex(ss[1..], i - 1, j);
    }
  }
}
